=== FILE: README.md ===
# Login page model

A Dafny model of the login screen of an Instagram-style web client (`src/LoginPage.jsx`).
The screen takes a phone number, username or email and a password. It checks the form
locally, counts failed attempts, locks out after five, and signs in against a simulated
identity provider. When sign-in is rejected, it retries as a sign-up unless three
attempts came before. It also offers a "Forgot password?" reset notice and runs a
four-slide promotional carousel.

Modules, in dependency order:

- `Wrappers` (`wrappers.dfy`): the `Option` result of the form check.
- `JsText` (`js_text.dfy`): the JavaScript string built-ins the code relies on.
  - `trim` and the regex class `\s`, over the ECMAScript WhiteSpace and LineTerminator set.
  - `String.prototype.includes`.
  - `split('@')[0]`.
  - ASCII lower-casing.
  - `length` in UTF-16 code units.
- `Validators` (`validators.dfy`): `validateEmail`, `validateUsername`, `validatePhone`, and the `isPhone` shape test of `validateForm`.
  - The email, phone and phone-shape regexes are each written twice: once as an executable scanner, and once as a ghost predicate that follows the regex literally. A lemma proves the two agree.
  - The username regex is a single predicate that follows it literally; `ValidateUsername`'s contract shows that the extra length test changes nothing.
  - The separator class of the `replace` regex is the predicate `IsSeparator`, and `StripSeparators` deletes those characters.
- `FormCheck` (`form_check.dfy`): `validateForm` as a pure cascade.
  - It returns `None` for an accepted form, or the first failing check.
  - Each check carries its exact message.
- `ErrorMessages` (`error_messages.dfy`): `getErrorMessage`, the code-to-text table and its fallback.
- `SimulatedAuth` (`simulated_auth.dfy`): how `signInWithEmailAndPassword` and `createUserWithEmailAndPassword` settle, and the email derived from the input.
- `LoginPage` (`login_page.dfy`): what each handler does to the state.
  - Pure specification: `AfterSubmit` and `Run`, with the lemmas about lockout, counter reset, the banner and the carousel.
  - The class `LoginPage`: its fields are the component's state.
    - `Submit` (`handleLogin`) is proved against `AfterSubmit`, `InputChanged` (`handleInputChange`) against `AfterInput`, and `Tick` (the carousel interval) against `NextSlide`.
    - `ForgotPassword`, `ShowSlide` (a dot click) and `SetOnline` (the online/offline events) state their new fields directly.
  - `Run` replays presses of "Log in" with no typing between them; `Replay` mixes presses with keystrokes.
- `LoginExamples` (`login_examples.dfy`): concrete runs.
  - A short password.
  - A sixth submission blocked by the lockout.
  - An address containing "error" that is rejected at sign-in and then logged in by the sign-up retry.

The error and success lines are modelled as the notice they display (`ErrorNotice`,
`SuccessNotice`). Each notice's `Text()` gives the exact string the source sets.

## Model

| member | source | states |
|---|---|---|
| JsText.Trim | src/LoginPage.jsx:163 | `trim()` gives the empty string exactly when every character is ECMAScript whitespace; otherwise neither end of the result is whitespace |
| JsText.Utf16Length | src/LoginPage.jsx:175 | `length` is at least one and at most two code units per character |
| JsText.Utf16LengthOfChar | src/LoginPage.jsx:175 | a character outside the Basic Multilingual Plane counts two code units, any other one |
| JsText.Utf16LengthAppend | src/LoginPage.jsx:175 | the length of a concatenation is the sum of the lengths, so with the single-character case the count is fixed for every string |
| JsText.Utf16LengthBmp | src/LoginPage.jsx:175 | a string of Basic Multilingual Plane characters has as many code units as characters |
| JsText.ContainsIff | src/LoginPage.jsx:182 | `includes` holds exactly when the needle occurs at some index of the text |
| JsText.BeforeFirst | src/LoginPage.jsx:209 | `split('@')[0]` is the longest prefix without '@', and is the whole text when there is no '@' |
| JsText.ToLowerAsciiAt | src/LoginPage.jsx:209 | each character of the lower-cased text is the ASCII lower case of the character at the same index |
| Validators.EmailMatchesRegex | src/LoginPage.jsx:142-145 | the email scanner accepts exactly the strings matching `^[a-zA-Z0-9._%+-]+@[a-zA-Z0-9.-]+\.[a-zA-Z]{2,}$` |
| Validators.DomainMatchesRegex | src/LoginPage.jsx:143 | the domain scanner (last '.' followed by two or more letters) accepts exactly `[a-zA-Z0-9.-]+\.[a-zA-Z]{2,}` |
| Validators.EmailHasOneAt | src/LoginPage.jsx:143 | a valid email holds exactly one '@' |
| Validators.EmailLocalPartNonEmpty | src/LoginPage.jsx:143 | a valid email has a non-empty part before its '@' |
| Validators.ValidEmailIsNotBlank | src/LoginPage.jsx:143 | a valid email is not blank, so the reset handler's blank test never catches one |
| Validators.ValidateUsername | src/LoginPage.jsx:147-150 | accepts exactly 1 to 30 characters from letters, digits, '.' and '_' |
| Validators.StripSeparators | src/LoginPage.jsx:154 | `replace(/[\s-()/]/g, '')` leaves no separator, keeps exactly the non-separator characters, and never lengthens the text |
| Validators.StripSeparatorsAppend | src/LoginPage.jsx:154 | stripping a concatenation is the concatenation of the stripped parts, so the kept characters stay in order with their repetitions |
| Validators.StripSeparatorsOfChar | src/LoginPage.jsx:154 | a single separator is removed and any other single character is kept |
| Validators.StripSeparatorsKeepsClean | src/LoginPage.jsx:154 | a string without separators comes back unchanged |
| Validators.PhoneDigitsMatchRegex | src/LoginPage.jsx:152-155 | the digit scanner accepts exactly `^[+]?[1-9][\d]{7,14}$` |
| Validators.ValidPhoneShape | src/LoginPage.jsx:152-155 | a valid phone number, once stripped, has an optional '+', a non-zero first digit and 8 to 15 digits in all |
| Validators.LooksLikePhoneMatchesRegex | src/LoginPage.jsx:183 | the shape test accepts exactly `^[+]?[\d\s-()/]+$` |
| Validators.LetterFirstIsNotPhone | src/LoginPage.jsx:183 | an input starting with a letter is never shaped like a phone number |
| Validators.EmailAndPhoneExclusive | src/LoginPage.jsx:182-183 | `isEmail` and `isPhone` never both hold |
| FormCheck.ValidateForm | src/LoginPage.jsx:157-215 | offline is always reported; the form is accepted iff no check fails; a reported check fails and every earlier one passes |
| FormCheck.ValidateFormReportsFirstFailure | src/LoginPage.jsx:157-215 | the reported check is exactly the first, in source order, whose condition (regexes as written) holds |
| FormCheck.ValidateFormAcceptsIffNoCheckFails | src/LoginPage.jsx:157-215 | a form is accepted exactly when none of the nine conditions holds |
| FormCheck.FailsAgreesWithCascade | src/LoginPage.jsx:185-212 | each check's test as the cascade runs it agrees with the regex as written |
| FormCheck.CascadeStopsAt | src/LoginPage.jsx:157-215 | a failing check with none failing before it is the one reported |
| FormCheck.AcceptedFormGuarantees | src/LoginPage.jsx:157-215 | an accepted form is online, fills both fields, has a password of at least six code units, fewer than five attempts, a valid email, phone or username, and a password without the identifier stem |
| FormCheck.RequirementsMetFormAccepted | src/LoginPage.jsx:157-215 | conversely, a form meeting all those requirements is accepted |
| FormCheck.LockoutReportedForWellFormedForm | src/LoginPage.jsx:204-207 | a well-formed form with five or more attempts gets the lockout message |
| FormCheck.StemLength | src/LoginPage.jsx:209 | the lower-cased stem is as long as the text before the first '@' |
| FormCheck.StemNonEmptyAfterFormatChecks | src/LoginPage.jsx:209-212 | once the earlier checks pass, the stem is non-empty, so the last check does not reject every password |
| FormCheck.PasswordWithoutStemStartPasses | src/LoginPage.jsx:209-212 | a password holding no case variant of the input's first character passes the last check |
| FormCheck.EmailFormAccepted | src/LoginPage.jsx:157-215 | an online, unlocked form with a letter-initial valid email and a six-unit password avoiding its first letter is accepted |
| ErrorMessages.GetErrorMessage | src/LoginPage.jsx:217-234 | a known code gets its table text, and every other code the fallback; the result is never empty |
| ErrorMessages.MessagesAreDistinctFromFallback | src/LoginPage.jsx:218-233 | no table text equals the fallback, so the fallback appears exactly for unknown codes |
| ErrorMessages.WrongPasswordReadsAsInvalidCredential | src/LoginPage.jsx:220-221 | wrong-password and invalid-credential show the same incorrect-password text |
| SimulatedAuth.SignIn | src/LoginPage.jsx:8-17 | sign-in is rejected exactly when the email contains "error", always with a retry code; a success carries the email |
| SimulatedAuth.CreateAccount | src/LoginPage.jsx:19-28 | sign-up is rejected as weak exactly when the password is under six code units |
| SimulatedAuth.DerivedEmail | src/LoginPage.jsx:249 | the provider's email holds an '@', extends the input, and is the input itself when that holds an '@' |
| SimulatedAuth.DerivedEmailContainsError | src/LoginPage.jsx:249 | appending the demo domain neither creates nor hides "error" |
| LoginPage.AfterAuth | src/LoginPage.jsx:244-296 | after the provider the counter is 0 exactly on login, which happens unless the input contains "error" and three attempts came before (the stale read); otherwise the counter goes up by one, the account is reported missing and the success line is empty. Both lines are cleared before the provider is called, so a login leaves no error |
| LoginPage.AfterSubmit | src/LoginPage.jsx:236-300 | the counter resets or goes up by one; a rejected form counts an attempt and keeps the success line; an accepted one leaves exactly what `AfterAuth` gives, so no earlier error survives a login |
| LoginPage.RejectedSubmission | src/LoginPage.jsx:239-242 | a form the cascade rejects never reaches the provider, counts one attempt and shows that check's message |
| LoginPage.CounterResetsExactlyOnLogin | src/LoginPage.jsx:267-286 | the counter returns to zero exactly when the submission reaches the provider and logs in |
| LoginPage.LockedOutStep | src/LoginPage.jsx:204-207 | a locked-out submission never reaches the provider and counts one more attempt |
| LoginPage.LockoutCountsEverySubmission | src/LoginPage.jsx:204-207 | from lockout, every submission in a run counts one attempt |
| LoginPage.LockoutIsPermanent | src/LoginPage.jsx:204-207 | from lockout, no later submission reaches the provider, so the lockout never lifts |
| LoginPage.BannerNeverReturnsAfterLockout | src/LoginPage.jsx:607 | after lockout the "attempt n of 5" banner never shows again |
| LoginPage.LockoutSurvivesEditing | src/LoginPage.jsx:349-353 | from lockout, typing never lowers the counter, so any mix of presses and keystrokes stays locked out |
| LoginPage.LockoutIsPermanentWithEditing | src/LoginPage.jsx:204-207 | from lockout, no press in any mix of presses and keystrokes reaches the provider, and the banner stays away |
| LoginPage.SignUpRetryNeverWeak | src/LoginPage.jsx:276-289 | the sign-up retry of an accepted form is never rejected as weak |
| LoginPage.ShortPasswordRejected | src/LoginPage.jsx:175-179 | a filled-in password under six code units counts one attempt and shows the length message, whatever the counter |
| LoginPage.ShortPasswordsCountUp | src/LoginPage.jsx:239-242 | a run of short-password submissions counts one attempt each and keeps the success line |
| LoginPage.LockedOutSubmissionBlocked | src/LoginPage.jsx:204-207 | a locked-out, otherwise well-formed submission shows the lockout message and never reaches the provider |
| LoginPage.AcceptedBelowRetryLimitLogsIn | src/LoginPage.jsx:273-286 | with fewer than three earlier attempts, every accepted submission ends logged in with the counter at zero |
| LoginPage.OfflineReportedFirst | src/LoginPage.jsx:158-161 | an offline submission sees the network message even when locked out |
| LoginPage.NextSlide | src/LoginPage.jsx:91 | the next slide is a valid slide and differs from the current one |
| LoginPage.TicksRotate | src/LoginPage.jsx:89-95 | after n ticks the carousel has moved n slides on, modulo four |
| LoginPage.EverySlideShown | src/LoginPage.jsx:89-95 | every slide is reached from every slide within four ticks |
| LoginPage.LoginPage.constructor | src/LoginPage.jsx:73-83 | the initial state: no attempts, no messages, the first slide, connectivity from the browser |
| LoginPage.LoginPage.SetOnline | src/LoginPage.jsx:99-100 | the online and offline events set the connectivity flag |
| LoginPage.LoginPage.Submit | src/LoginPage.jsx:236-300 | `handleLogin` leaves the state that `AfterSubmit` gives and reports whether the provider was called |
| LoginPage.LoginPage.Authenticate | src/LoginPage.jsx:244-299 | the provider part of `handleLogin` leaves the state `AfterAuth` gives; its two `getErrorMessage` branches are unreachable |
| LoginPage.LoginPage.InputChanged | src/LoginPage.jsx:349-353 | a keystroke clears the error line (no transition is under way) and the success line, and leaves the counter as it was |
| LoginPage.LoginPage.ForgotPassword | src/LoginPage.jsx:332-347 | a valid email gets the reset notice and a cleared error; otherwise the success line is kept and the error is the blank or the invalid message |
| LoginPage.LoginPage.Tick | src/LoginPage.jsx:91 | the interval moves to the next slide |
| LoginPage.LoginPage.ShowSlide | src/LoginPage.jsx:462 | a dot click shows that slide |
| LoginExamples.ExampleShortPassword | src/LoginPage.jsx:175-179 | "alice" with "abc12" counts an attempt and shows "Password must be at least 6 characters" |
| LoginExamples.ExampleSixthSubmissionBlocked | src/LoginPage.jsx:204-207 | after five short-password tries, "alice" with a good password gets the lockout message |
| LoginExamples.ExampleErrorEmailRetriedAsSignUp | src/LoginPage.jsx:8-17 | "test@error.com" is rejected at sign-in but ends logged in through the sign-up retry |

## Left out

- Rendering and JSX, focus and blur effects, `showPassword`, the caps-lock key handler, activity listeners and styling are not modelled. The paste handler (its password-paste error and the timer that clears it) and the Sign-up link (its "coming soon" notice) are not modelled either, so their texts are not among the notices.
- Timers are not modelled: the provider's random delays, the 3-second interval (modelled as the `Tick` step) and the 1.5-second delay before `window.open` in `goToIG`. Only the success message that `goToIG` sets is modelled.
- The provider's `uid` (built from `Date.now`) and every `console.log` call are left out. They do not affect the state.
- `handleSocialLogin` and `signInWithPopup` are not modelled: they are a separate popup path outside the email and password flow.
- `handleInputChange` stores the typed text in state; the model passes the inputs to `Submit` as parameters instead. Its clearing of the error and success lines is `InputChanged`.
- LoginPage.Run: replays presses with no keystroke between them, so its lemmas' "keeps the success line" holds only for such runs. A keystroke clears both lines; `Replay` and `LockoutIsPermanentWithEditing` cover runs with typing.
- The submit button is disabled while loading, while either field is empty and while offline. The model takes every submission the handler could receive, a superset of what the rendered form sends. So `Offline` and `OfflineReportedFirst` describe submissions that only a programmatic submit could make.
- LoginPage.LoginPage.Submit: each handler is modelled as one atomic transition that reads the state at entry. So the counter read at line 274 is the value from before the handler's own increment. Interleaving of two in-flight submissions and React's batching of state updates are not modelled. `loading` is true only inside a transition.
- The initial `navigator.onLine` value is a constructor parameter, and the browser events are the `SetOnline` method.
- JsText.ToLowerAscii: lower-cases only A to Z. Full Unicode case mapping (including characters whose lower case changes length) is not modelled.
- JsText.IsJsWhitespace: the Unicode space separators (category Zs) are listed explicitly, as of current Unicode.
- ErrorMessages.GetErrorMessage: treats the table as a plain map. A code naming an inherited object property such as "constructor" would yield a function in JavaScript. The provider never produces such codes.
- The error and success lines are modelled as the notices they display. `Text()` gives each notice's exact string, but no lemma relates two notices' texts.
- The blank tests `!x.trim()` are stated as `AllWhitespace(x)`. `JsText.Trim` proves the two equal.

=== FILE: error_messages.dfy ===
/**
 * `getErrorMessage`: the table from authentication error codes to the text
 * shown under the form, with a generic fallback.
 */
module ErrorMessages {

  const GenericMessage: string := "Something went wrong. Please try again."

  const IncorrectPasswordMessage: string :=
    "Sorry, your password was incorrect. Please double-check your password."

  /** The twelve codes the component knows. */
  const Messages: map<string, string> := map[
    "auth/user-not-found" := "The username you entered doesn't belong to an account. Please check your username and try again.",
    "auth/wrong-password" := IncorrectPasswordMessage,
    "auth/invalid-credential" := IncorrectPasswordMessage,
    "auth/too-many-requests" := "Too many unsuccessful login attempts. Please try again later.",
    "auth/weak-password" := "Password should be at least 6 characters",
    "auth/email-already-in-use" := "An account with this email already exists",
    "auth/invalid-email" := "Please enter a valid email address",
    "auth/user-disabled" := "This account has been disabled. Please contact support.",
    "auth/operation-not-allowed" := "This sign-in method is not enabled. Please contact support.",
    "auth/network-request-failed" := "Network error. Please check your connection and try again.",
    "auth/popup-closed-by-user" := "Sign-in was cancelled. Please try again.",
    "auth/popup-blocked" := "Pop-up was blocked by your browser. Please allow pop-ups and try again."
  ]

  /** No listed text is empty or equal to the fallback. */
  lemma MessagesAreDistinctFromFallback()
    ensures forall code | code in Messages :: Messages[code] != "" && Messages[code] != GenericMessage
  {
    forall code | code in Messages
      ensures Messages[code] != "" && Messages[code] != GenericMessage
    {
    }
  }

  /** `errorMessages[errorCode] || 'Something went wrong...'`: a missing code, or
      one whose text is empty, falls back to the generic message. */
  function GetErrorMessage(code: string): (r: string)
    ensures r != ""
    ensures r == GenericMessage <==> code !in Messages
    ensures code in Messages ==> r == Messages[code]
  {
    MessagesAreDistinctFromFallback();
    if code in Messages && Messages[code] != "" then Messages[code] else GenericMessage
  }

  /** A wrong password and an invalid credential read the same to the user. */
  lemma WrongPasswordReadsAsInvalidCredential()
    ensures GetErrorMessage("auth/wrong-password") == GetErrorMessage("auth/invalid-credential")
    ensures GetErrorMessage("auth/invalid-credential") == IncorrectPasswordMessage
  {
    assert Messages["auth/wrong-password"] == IncorrectPasswordMessage;
    assert Messages["auth/invalid-credential"] == IncorrectPasswordMessage;
  }
}

=== FILE: form_check.dfy ===
/**
 * `validateForm`: the cascade of checks run on submit, in source order. The first
 * check that fails decides the message; a form that passes them all is handed to
 * the authentication call. The setError and focus side effects are left to the
 * caller: the result names the failed check and `Message` gives its text.
 */
module FormCheck {
  import opened Wrappers
  import opened JsText
  import opened Validators

  /** What the cascade reads: connectivity, the two inputs and the attempt counter. */
  datatype Form = Form(online: bool, input: string, password: string, attempts: nat)

  /** The checks, one constructor each, in the order the cascade runs them. */
  datatype FormError =
    | Offline
    | MissingIdentifier
    | MissingPassword
    | ShortPassword
    | InvalidEmail
    | InvalidPhone
    | InvalidUsername
    | TooManyAttempts
    | PasswordContainsIdentifier
  {
    /** The text shown when this check fails. */
    function Message(): string {
      match this
      case Offline => "No internet connection. Please check your network and try again."
      case MissingIdentifier => "Phone number, username, or email is required"
      case MissingPassword => "Password is required"
      case ShortPassword => "Password must be at least 6 characters"
      case InvalidEmail => "Please enter a valid email address"
      case InvalidPhone => "Please enter a valid phone number"
      case InvalidUsername => "Username can only contain letters, numbers, periods, and underscores"
      case TooManyAttempts => "Too many login attempts. Please wait a few minutes before trying again."
      case PasswordContainsIdentifier => "Password cannot contain your username or email"
    }

    /** The position of this check in the cascade. */
    function Rank(): nat {
      match this
      case Offline => 0
      case MissingIdentifier => 1
      case MissingPassword => 2
      case ShortPassword => 3
      case InvalidEmail => 4
      case InvalidPhone => 5
      case InvalidUsername => 6
      case TooManyAttempts => 7
      case PasswordContainsIdentifier => 8
    }
  }

  const MinPasswordLength: nat := 6
  const MaxAttempts: nat := 5

  /** `userInput.toLowerCase().split('@')[0]`: what the password must not contain. */
  function IdentifierStem(input: string): string {
    BeforeFirst(ToLowerAscii(input), '@')
  }

  /** The test the cascade runs for each check. */
  predicate CascadeFails(check: FormError, f: Form) {
    match check
    case Offline => !f.online
    case MissingIdentifier => AllWhitespace(f.input)
    case MissingPassword => AllWhitespace(f.password)
    case ShortPassword => Utf16Length(f.password) < MinPasswordLength
    case InvalidEmail => '@' in f.input && !ValidateEmail(f.input)
    case InvalidPhone => LooksLikePhone(f.input) && !ValidatePhone(f.input)
    case InvalidUsername => '@' !in f.input && !LooksLikePhone(f.input) && !ValidateUsername(f.input)
    case TooManyAttempts => f.attempts >= MaxAttempts
    case PasswordContainsIdentifier => Contains(ToLowerAscii(f.password), IdentifierStem(f.input))
  }

  /** `validateForm`: None when the form may be submitted, otherwise the first
      check whose test fails. */
  function ValidateForm(f: Form): (r: Option<FormError>)
    ensures !f.online ==> r == Some(Offline)
    ensures r == None <==> forall c: FormError :: !CascadeFails(c, f)
    ensures r.Some? ==>
      (CascadeFails(r.value, f) && forall c: FormError :: c.Rank() < r.value.Rank() ==> !CascadeFails(c, f))
  {
    if CascadeFails(Offline, f) then Some(Offline)
    else if CascadeFails(MissingIdentifier, f) then Some(MissingIdentifier)
    else if CascadeFails(MissingPassword, f) then Some(MissingPassword)
    else if CascadeFails(ShortPassword, f) then Some(ShortPassword)
    else if CascadeFails(InvalidEmail, f) then Some(InvalidEmail)
    else if CascadeFails(InvalidPhone, f) then Some(InvalidPhone)
    else if CascadeFails(InvalidUsername, f) then Some(InvalidUsername)
    else if CascadeFails(TooManyAttempts, f) then Some(TooManyAttempts)
    else if CascadeFails(PasswordContainsIdentifier, f) then Some(PasswordContainsIdentifier)
    else None
  }

  /** A form the cascade accepts meets every requirement the source checks. */
  lemma AcceptedFormGuarantees(f: Form)
    requires ValidateForm(f) == None
    ensures f.online && !AllWhitespace(f.input) && !AllWhitespace(f.password)
    ensures Utf16Length(f.password) >= MinPasswordLength && f.attempts < MaxAttempts
    ensures '@' in f.input ==> ValidateEmail(f.input)
    ensures LooksLikePhone(f.input) ==> ValidatePhone(f.input)
    ensures '@' !in f.input && !LooksLikePhone(f.input) ==> ValidateUsername(f.input)
    ensures !Contains(ToLowerAscii(f.password), IdentifierStem(f.input))
  {
    assert f.online by { assert !CascadeFails(Offline, f); }
    assert !AllWhitespace(f.input) by { assert !CascadeFails(MissingIdentifier, f); }
    assert !AllWhitespace(f.password) by { assert !CascadeFails(MissingPassword, f); }
    assert Utf16Length(f.password) >= MinPasswordLength by { assert !CascadeFails(ShortPassword, f); }
    assert '@' in f.input ==> ValidateEmail(f.input) by { assert !CascadeFails(InvalidEmail, f); }
    assert LooksLikePhone(f.input) ==> ValidatePhone(f.input) by { assert !CascadeFails(InvalidPhone, f); }
    assert '@' !in f.input && !LooksLikePhone(f.input) ==> ValidateUsername(f.input) by {
      assert !CascadeFails(InvalidUsername, f);
    }
    assert f.attempts < MaxAttempts by { assert !CascadeFails(TooManyAttempts, f); }
    assert !Contains(ToLowerAscii(f.password), IdentifierStem(f.input)) by {
      assert !CascadeFails(PasswordContainsIdentifier, f);
    }
  }

  /** Conversely, a form that meets every requirement is accepted. */
  lemma RequirementsMetFormAccepted(f: Form)
    requires f.online && !AllWhitespace(f.input) && !AllWhitespace(f.password)
    requires Utf16Length(f.password) >= MinPasswordLength && f.attempts < MaxAttempts
    requires '@' in f.input ==> ValidateEmail(f.input)
    requires LooksLikePhone(f.input) ==> ValidatePhone(f.input)
    requires '@' !in f.input && !LooksLikePhone(f.input) ==> ValidateUsername(f.input)
    requires !Contains(ToLowerAscii(f.password), IdentifierStem(f.input))
    ensures ValidateForm(f) == None
  {
    forall c: FormError ensures !CascadeFails(c, f) {
      match c
      case Offline => case MissingIdentifier => case MissingPassword =>
      case ShortPassword => case InvalidEmail => case InvalidPhone =>
      case InvalidUsername => case TooManyAttempts => case PasswordContainsIdentifier =>
    }
  }

  /** A well-formed form from a locked-out user gets the lockout message. */
  lemma LockoutReportedForWellFormedForm(f: Form)
    requires f.online && !AllWhitespace(f.input) && !AllWhitespace(f.password)
    requires Utf16Length(f.password) >= MinPasswordLength && f.attempts >= MaxAttempts
    requires '@' in f.input ==> ValidateEmail(f.input)
    requires LooksLikePhone(f.input) ==> ValidatePhone(f.input)
    requires '@' !in f.input && !LooksLikePhone(f.input) ==> ValidateUsername(f.input)
    ensures ValidateForm(f) == Some(TooManyAttempts)
  {
    forall c: FormError | c.Rank() < TooManyAttempts.Rank() ensures !CascadeFails(c, f) {
      match c
      case Offline => case MissingIdentifier => case MissingPassword =>
      case ShortPassword => case InvalidEmail => case InvalidPhone =>
      case InvalidUsername => case _ =>
    }
    CascadeStopsAt(f, TooManyAttempts);
  }

  /** A password in which the identifier's first character does not occur, in
      either case, passes the last check. */
  lemma PasswordWithoutStemStartPasses(f: Form)
    requires !AllWhitespace(f.input)
    requires '@' in f.input ==> ValidateEmail(f.input)
    requires forall k :: 0 <= k < |f.password| ==> LowerChar(f.password[k]) != LowerChar(f.input[0])
    ensures !CascadeFails(PasswordContainsIdentifier, f)
  {
    StemNonEmptyAfterFormatChecks(f);
    var stem := IdentifierStem(f.input);
    var lower := ToLowerAscii(f.password);
    ToLowerAsciiAt(f.input, 0);
    assert stem[0] == LowerChar(f.input[0]);
    forall k | 0 <= k < |lower| ensures lower[k] != stem[0] {
      ToLowerAsciiAt(f.password, k);
    }
    NotContainedWithoutFirstChar(lower, stem);
  }

  /** A form whose identifier is a well-formed email address starting with a
      letter is accepted once the other requirements hold. */
  lemma EmailFormAccepted(f: Form)
    requires f.online && f.attempts < MaxAttempts && !AllWhitespace(f.password)
    requires Utf16Length(f.password) >= MinPasswordLength
    requires ValidateEmail(f.input) && IsAsciiLetter(f.input[0])
    requires forall k :: 0 <= k < |f.password| ==> LowerChar(f.password[k]) != LowerChar(f.input[0])
    ensures ValidateForm(f) == None
  {
    ValidEmailIsNotBlank(f.input);
    LetterFirstIsNotPhone(f.input);
    PasswordWithoutStemStartPasses(f);
    RequirementsMetFormAccepted(f);
  }

  /** Each check on its own terms: whether it rejects the form, independently of
      the others. */
  ghost predicate Fails(check: FormError, f: Form) {
    match check
    case Offline => !f.online
    case MissingIdentifier => AllWhitespace(f.input)
    case MissingPassword => AllWhitespace(f.password)
    case ShortPassword => Utf16Length(f.password) < 6
    case InvalidEmail => '@' in f.input && !EmailRegex(f.input)
    case InvalidPhone => PhoneShapeRegex(f.input) && !PhoneRegex(StripSeparators(f.input))
    case InvalidUsername => '@' !in f.input && !PhoneShapeRegex(f.input) && !UsernameRegex(f.input)
    case TooManyAttempts => f.attempts >= 5
    case PasswordContainsIdentifier =>
      exists i: nat :: OccursAt(ToLowerAscii(f.password), IdentifierStem(f.input), i)
  }

  /** Each check's own condition agrees with the test the cascade runs for it. */
  lemma FailsAgreesWithCascade(c: FormError, f: Form)
    ensures Fails(c, f) == CascadeFails(c, f)
  {
    match c
    case InvalidEmail => EmailMatchesRegex(f.input);
    case InvalidPhone =>
      LooksLikePhoneMatchesRegex(f.input);
      PhoneDigitsMatchRegex(StripSeparators(f.input));
    case InvalidUsername => LooksLikePhoneMatchesRegex(f.input);
    case PasswordContainsIdentifier => ContainsIff(ToLowerAscii(f.password), IdentifierStem(f.input));
    case _ =>
  }

  /** No two checks share a rank. */
  lemma RankIsInjective(c: FormError, d: FormError)
    requires c.Rank() == d.Rank()
    ensures c == d
  {
  }

  /** A failing test with none failing before it is the one reported. */
  lemma CascadeStopsAt(f: Form, e: FormError)
    requires CascadeFails(e, f)
    requires forall c: FormError :: c.Rank() < e.Rank() ==> !CascadeFails(c, f)
    ensures ValidateForm(f) == Some(e)
  {
    var r := ValidateForm(f);
    RankIsInjective(r.value, e);
  }

  /** The cascade reports exactly the first check, in rank order, that fails. */
  lemma ValidateFormReportsFirstFailure(f: Form, e: FormError)
    ensures ValidateForm(f) == Some(e) <==>
      Fails(e, f) && forall c: FormError :: c.Rank() < e.Rank() ==> !Fails(c, f)
  {
    forall c: FormError { FailsAgreesWithCascade(c, f); }
    var r := ValidateForm(f);
    if Fails(e, f) && forall c: FormError :: c.Rank() < e.Rank() ==> !Fails(c, f) {
      assert r != None;
      RankIsInjective(r.value, e);
    }
  }

  /** The cascade accepts exactly the forms no check rejects. */
  lemma ValidateFormAcceptsIffNoCheckFails(f: Form)
    ensures ValidateForm(f) == None <==> forall c: FormError :: !Fails(c, f)
  {
    forall c: FormError { FailsAgreesWithCascade(c, f); }
  }

  /** Lower-casing moves no '@', so the stem is as long as the text before the first '@'. */
  lemma StemLength(input: string)
    ensures |IdentifierStem(input)| == |BeforeFirst(input, '@')|
  {
    var lower := ToLowerAscii(input);
    var b := BeforeFirst(input, '@');
    forall k | 0 <= k < |input| ensures (lower[k] == '@') == (input[k] == '@') {
      ToLowerAsciiAt(input, k);
    }
    if |b| < |input| {
      assert '@' !in lower[..|b|] by {
        forall k | 0 <= k < |b| ensures lower[..|b|][k] != '@' { assert input[k] == b[k]; }
      }
      BeforeFirstAt(lower, '@', |b|);
    } else {
      assert '@' !in lower by {
        forall k | 0 <= k < |lower| ensures lower[k] != '@' { assert input[k] == b[k]; }
      }
    }
  }

  /** Once the format checks pass, the text searched for in the password is never
      empty, so the last check never rejects every password outright. */
  lemma StemNonEmptyAfterFormatChecks(f: Form)
    requires !AllWhitespace(f.input)
    requires '@' in f.input ==> ValidateEmail(f.input)
    ensures |IdentifierStem(f.input)| >= 1
  {
    StemLength(f.input);
    if '@' in f.input {
      EmailLocalPartNonEmpty(f.input);
    }
  }
}

=== FILE: js_text.dfy ===
/**
 * The JavaScript string built-ins the login form relies on, over Dafny strings
 * (sequences of Unicode scalar values).
 */
module JsText {

  /** ECMAScript WhiteSpace or LineTerminator: the set the regex escape \s matches
      and String.prototype.trim strips (Zs listed as of Unicode 15). */
  predicate IsJsWhitespace(c: char) {
    var n := c as int;
    n == 0x09 || n == 0x0A || n == 0x0B || n == 0x0C || n == 0x0D || n == 0x20 ||
    n == 0xA0 || n == 0x1680 || (0x2000 <= n <= 0x200A) || n == 0x2028 || n == 0x2029 ||
    n == 0x202F || n == 0x205F || n == 0x3000 || n == 0xFEFF
  }

  predicate AllWhitespace(s: string) {
    forall k :: 0 <= k < |s| ==> IsJsWhitespace(s[k])
  }

  /** Leading whitespace removed. */
  function TrimStart(s: string): (r: string)
    ensures |r| <= |s| && r == s[|s| - |r|..]
    ensures r == [] || !IsJsWhitespace(r[0])
    ensures AllWhitespace(s[..|s| - |r|])
  {
    if s != [] && IsJsWhitespace(s[0]) then TrimStart(s[1..]) else s
  }

  /** Trailing whitespace removed. */
  function TrimEnd(s: string): (r: string)
    ensures |r| <= |s| && r == s[..|r|]
    ensures r == [] || !IsJsWhitespace(r[|r| - 1])
    ensures AllWhitespace(s[|r|..])
  {
    if s != [] && IsJsWhitespace(s[|s| - 1]) then TrimEnd(s[..|s| - 1]) else s
  }

  /** String.prototype.trim. */
  function Trim(s: string): (r: string)
    ensures r == [] <==> AllWhitespace(s)
    ensures r != [] ==> !IsJsWhitespace(r[0]) && !IsJsWhitespace(r[|r| - 1])
  {
    var t := TrimStart(s);
    assert AllWhitespace(t) ==> t == [] && s[..|s| - |t|] == s;
    TrimEnd(t)
  }

  /** `s.length`: the number of UTF-16 code units. */
  function Utf16Length(s: string): (n: nat)
    ensures |s| <= n <= 2 * |s|
  {
    if s == [] then 0 else (if s[0] as int >= 0x10000 then 2 else 1) + Utf16Length(s[1..])
  }

  /** A character outside the Basic Multilingual Plane takes a surrogate pair, any
      other character one code unit. */
  lemma Utf16LengthOfChar(c: char)
    ensures Utf16Length([c]) == if c as int >= 0x10000 then 2 else 1
  {
    assert [c][1..] == [];
  }

  /** The length of a concatenation is the sum of the lengths. */
  lemma {:induction false} Utf16LengthAppend(a: string, b: string)
    ensures Utf16Length(a + b) == Utf16Length(a) + Utf16Length(b)
    decreases |a|
  {
    if a == [] {
      assert a + b == b;
    } else {
      assert (a + b)[0] == a[0] && (a + b)[1..] == a[1..] + b;
      Utf16LengthAppend(a[1..], b);
    }
  }

  /** Within the Basic Multilingual Plane, `length` is the number of characters. */
  lemma {:induction false} Utf16LengthBmp(s: string)
    requires forall k :: 0 <= k < |s| ==> s[k] as int < 0x10000
    ensures Utf16Length(s) == |s|
    decreases |s|
  {
    if s != [] {
      assert forall k :: 0 <= k < |s[1..]| ==> s[1..][k] == s[k + 1];
      Utf16LengthBmp(s[1..]);
    }
  }

  /** `needle` occurs in `hay` starting at index `i`. */
  predicate OccursAt(hay: string, needle: string, i: nat) {
    i + |needle| <= |hay| && hay[i..i + |needle|] == needle
  }

  /** String.prototype.includes, scanning from the left. */
  predicate Contains(hay: string, needle: string)
    decreases |hay|
  {
    needle <= hay || (hay != [] && Contains(hay[1..], needle))
  }

  /** `includes` holds exactly when the needle occurs at some index. */
  lemma ContainsIff(hay: string, needle: string)
    ensures Contains(hay, needle) <==> exists i: nat :: OccursAt(hay, needle, i)
  {
    if Contains(hay, needle) {
      var i := ContainsWitness(hay, needle);
    }
    forall i: nat | OccursAt(hay, needle, i) ensures Contains(hay, needle) {
      OccursAtContains(hay, needle, i);
    }
  }

  lemma {:induction false} ContainsWitness(hay: string, needle: string) returns (i: nat)
    requires Contains(hay, needle)
    ensures OccursAt(hay, needle, i)
    decreases |hay|
  {
    if needle <= hay {
      i := 0;
    } else {
      var j := ContainsWitness(hay[1..], needle);
      assert hay[j + 1..j + 1 + |needle|] == hay[1..][j..j + |needle|];
      i := j + 1;
    }
  }

  lemma {:induction false} OccursAtContains(hay: string, needle: string, i: nat)
    requires OccursAt(hay, needle, i)
    ensures Contains(hay, needle)
    decreases i
  {
    if i > 0 {
      assert hay[1..][i - 1..i - 1 + |needle|] == hay[i..i + |needle|];
      OccursAtContains(hay[1..], needle, i - 1);
    }
  }

  /** A needle whose first character the haystack lacks is not found. */
  lemma {:induction false} NotContainedWithoutFirstChar(hay: string, needle: string)
    requires needle != [] && needle[0] !in hay
    ensures !Contains(hay, needle)
    decreases |hay|
  {
    if hay != [] {
      NotContainedWithoutFirstChar(hay[1..], needle);
    }
  }

  /** `s.split(c)[0]`: the text before the first `c`, or all of `s` when there is none. */
  function BeforeFirst(s: string, c: char): (r: string)
    ensures r <= s && c !in r
    ensures |r| < |s| ==> s[|r|] == c
  {
    if s == [] || s[0] == c then [] else [s[0]] + BeforeFirst(s[1..], c)
  }

  /** The first `c` sits at index `i`. */
  lemma BeforeFirstAt(s: string, c: char, i: nat)
    requires i < |s| && s[i] == c && c !in s[..i]
    ensures BeforeFirst(s, c) == s[..i]
  {
  }

  /** The text after the last `c`, or all of `s` when there is none. */
  function AfterLast(s: string, c: char): (r: string)
    ensures |r| <= |s| && r == s[|s| - |r|..] && c !in r
    ensures |r| < |s| ==> s[|s| - |r| - 1] == c
  {
    if s == [] || s[|s| - 1] == c then [] else AfterLast(s[..|s| - 1], c) + [s[|s| - 1]]
  }

  /** The last `c` sits at index `i`. */
  lemma AfterLastAt(s: string, c: char, i: nat)
    requires i < |s| && s[i] == c && c !in s[i + 1..]
    ensures AfterLast(s, c) == s[i + 1..]
  {
  }

  /** String.prototype.toLowerCase, restricted to the ASCII letters. */
  function LowerChar(c: char): char {
    if 'A' <= c <= 'Z' then (c as int + 32) as char else c
  }

  function ToLowerAscii(s: string): (r: string)
    ensures |r| == |s|
  {
    if s == [] then [] else [LowerChar(s[0])] + ToLowerAscii(s[1..])
  }

  /** Lower-casing works character by character. */
  lemma {:induction false} ToLowerAsciiAt(s: string, k: nat)
    requires k < |s|
    ensures ToLowerAscii(s)[k] == LowerChar(s[k])
  {
    if k > 0 { ToLowerAsciiAt(s[1..], k - 1); }
  }
}

=== FILE: login_examples.dfy ===
/**
 * Concrete runs of the login rules: a short password, the lockout after five
 * failures, and an address containing "error" that is rejected at sign-in and
 * then logged in by the sign-up retry. Facts about the literal inputs are kept in
 * small lemmas of their own and handed to the general rules.
 */
module LoginExamples {
  import opened JsText
  import opened Validators
  import opened FormCheck
  import opened LoginPage
  import SimulatedAuth

  /** "alice" with "abc12" stops at the password-length check. */
  lemma AliceShortPassword()
    ensures ShortPasswordSubmission(Submission(true, "alice", "abc12"))
  {
    assert !IsJsWhitespace("alice"[0]) && !IsJsWhitespace("abc12"[0]);
    assert Utf16Length("abc12") == 5;
  }

  /** "alice" with a five-character password is turned away with the length message. */
  lemma ExampleShortPassword(s: Status)
    ensures AfterSubmit(s, Submission(true, "alice", "abc12")).attempts == s.attempts + 1
    ensures AfterSubmit(s, Submission(true, "alice", "abc12")).error.Text() ==
      "Password must be at least 6 characters"
  {
    AliceShortPassword();
    ShortPasswordRejected(s, Submission(true, "alice", "abc12"));
  }

  /** "alice" is a well-formed username. */
  lemma AliceIsUsername()
    ensures !AllWhitespace("alice") && '@' !in "alice"
    ensures !LooksLikePhone("alice") && ValidateUsername("alice")
  {
    assert !IsJsWhitespace("alice"[0]);
    LetterFirstIsNotPhone("alice");
  }

  /** "s3cret-pass" is not blank and is long enough. */
  lemma GoodPasswordFilledIn()
    ensures !AllWhitespace("s3cret-pass") && Utf16Length("s3cret-pass") >= MinPasswordLength
  {
    assert !IsJsWhitespace("s3cret-pass"[0]);
    assert Utf16Length("s3cret-pass") == 11;
  }

  /** After five short-password submissions a sixth, well-formed one is blocked
      with the lockout message. */
  lemma ExampleSixthSubmissionBlocked()
    ensures var locked := Run(Status(0, NoError, NoSuccess), seq(5, _ => Submission(true, "alice", "abc12")));
      locked.attempts == MaxAttempts &&
      AfterSubmit(locked, Submission(true, "alice", "s3cret-pass")).error == CheckFailed(TooManyAttempts)
  {
    var start := Status(0, NoError, NoSuccess);
    var shortOnes := seq(5, _ => Submission(true, "alice", "abc12"));
    AliceShortPassword();
    ShortPasswordsCountUp(start, shortOnes);
    AliceIsUsername();
    GoodPasswordFilledIn();
    LockedOutSubmissionBlocked(Run(start, shortOnes), Submission(true, "alice", "s3cret-pass"));
  }

  /** "test@error.com" is a well-formed email address. */
  lemma ErrorEmailIsWellFormed()
    ensures ValidateEmail("test@error.com")
  {
    var input := "test@error.com";
    assert DomainSplit("error.com", 5);
    assert input[5..] == "error.com";
    assert EmailSplit(input, 4);
    EmailCheckComplete(input, 4);
  }

  /** "abcdef" is not blank and is exactly long enough. */
  lemma ErrorEmailPasswordFilledIn()
    ensures !AllWhitespace("abcdef") && Utf16Length("abcdef") == MinPasswordLength
  {
    assert !IsJsWhitespace("abcdef"[0]);
  }

  /** "abcdef" holds no 't', the first letter of "test@error.com". */
  lemma ErrorEmailPasswordAvoidsStem()
    ensures forall k :: 0 <= k < |"abcdef"| ==> LowerChar("abcdef"[k]) != LowerChar("test@error.com"[0])
  {
  }

  /** "test@error.com" with "abcdef" passes every check on a fresh form. */
  lemma ErrorEmailFormAccepted()
    ensures ReachesAuth(Status(0, NoError, NoSuccess), Submission(true, "test@error.com", "abcdef"))
  {
    var f := FormOf(Status(0, NoError, NoSuccess), Submission(true, "test@error.com", "abcdef"));
    ErrorEmailIsWellFormed();
    ErrorEmailPasswordFilledIn();
    ErrorEmailPasswordAvoidsStem();
    assert IsAsciiLetter("test@error.com"[0]);
    EmailFormAccepted(f);
  }

  /** The simulated provider turns "test@error.com" away at sign-in. */
  lemma ErrorEmailRejectedAtSignIn()
    ensures SimulatedAuth.SignIn("test@error.com", "abcdef").Rejected?
  {
    assert Contains("test@error.com", "error");
  }

  /** So that submission, although rejected at sign-in, is logged in by the
      sign-up retry on a fresh form. */
  lemma ExampleErrorEmailRetriedAsSignUp()
    ensures SimulatedAuth.SignIn("test@error.com", "abcdef").Rejected?
    ensures AfterSubmit(Status(0, NoError, NoSuccess), Submission(true, "test@error.com", "abcdef")) ==
      Status(0, NoError, LoggedIn)
  {
    ErrorEmailRejectedAtSignIn();
    ErrorEmailFormAccepted();
    AcceptedBelowRetryLimitLogsIn(Status(0, NoError, NoSuccess), Submission(true, "test@error.com", "abcdef"));
  }
}

=== FILE: login_page.dfy ===
/**
 * The login component's state machine: what a press of "Log in", a press of
 * "Forgot password?" and a carousel tick do to the state the form renders.
 * Each handler runs as one atomic transition that reads the state at entry; the
 * provider's delays are left out, so `loading` is true only inside a transition.
 */
module LoginPage {
  import opened Wrappers
  import opened JsText
  import opened Validators
  import opened FormCheck
  import opened SimulatedAuth

  /** Below this many earlier attempts a rejected sign-in is retried as a sign-up. */
  const RetryLimit: nat := 3

  /** The number of promotional slides. */
  const SlideCount: nat := 4

  // -------------------------------------------------------------------- notices

  /** What the error line can show. The modelled handlers only ever set these
      texts, so the line is modelled as the notice it displays. */
  datatype ErrorNotice =
    | NoError
    | CheckFailed(check: FormError)
    | AccountNotFound
    | ResetNeedsEmail
    | ResetEmailInvalid
  {
    /** The text on the error line. */
    function Text(): string {
      match this
      case NoError => ""
      case CheckFailed(check) => check.Message()
      case AccountNotFound =>
        "The username you entered doesn't belong to an account. Please check your username and try again, or sign up for a new account."
      case ResetNeedsEmail => "Please enter your email address first"
      case ResetEmailInvalid => "Please enter a valid email address"
    }
  }

  /** What the success line can show. */
  datatype SuccessNotice = NoSuccess | LoggedIn | ResetSent(email: string)
  {
    /** The text on the success line. */
    function Text(): string {
      match this
      case NoSuccess => ""
      case LoggedIn => "Login successful! Redirecting..."
      case ResetSent(email) => "We sent an email to " + email + " with a link to get back into your account."
    }
  }

  // ----------------------------------------------------------- submission rules

  /** The part of the state a submission changes. */
  datatype Status = Status(attempts: nat, error: ErrorNotice, success: SuccessNotice)

  /** One press of "Log in": connectivity and the two inputs at that moment. */
  datatype Submission = Submission(online: bool, input: string, password: string)

  function FormOf(s: Status, sub: Submission): Form {
    Form(sub.online, sub.input, sub.password, s.attempts)
  }

  /** The submission passes the cascade and so reaches the provider. */
  predicate ReachesAuth(s: Status, sub: Submission) {
    ValidateForm(FormOf(s, sub)).None?
  }

  /** What an accepted submission leaves behind: the provider rejects an address
      containing "error"; a rejection is retried as a sign-up, which succeeds,
      unless three or more attempts came before (the counter as the handler saw
      it, before its own increment), and then the account is reported missing. */
  function AfterAuth(s: Status, input: string): (r: Status)
    ensures r.attempts == 0 <==> r.success == LoggedIn
    ensures r.attempts == 0 <==> !Contains(input, "error") || s.attempts < RetryLimit
    ensures r.attempts == 0 ==> r.error == NoError && r.success == LoggedIn
    ensures r.attempts != 0 ==> r == Status(s.attempts + 1, AccountNotFound, NoSuccess)
  {
    if !Contains(input, "error") || s.attempts < RetryLimit then Status(0, NoError, LoggedIn)
    else Status(s.attempts + 1, AccountNotFound, NoSuccess)
  }

  /** What a submission leaves behind: a form the cascade rejects counts one
      attempt and shows the failed check's message, keeping the success line; an
      accepted one goes to the provider. */
  function AfterSubmit(s: Status, sub: Submission): (r: Status)
    ensures r.attempts == 0 || r.attempts == s.attempts + 1
    ensures !ReachesAuth(s, sub) ==> r.attempts == s.attempts + 1 && r.success == s.success
    ensures ReachesAuth(s, sub) ==> r.error == NoError || r.error == AccountNotFound
    ensures ReachesAuth(s, sub) ==> r == AfterAuth(s, sub.input)
  {
    match ValidateForm(FormOf(s, sub))
    case Some(e) => Status(s.attempts + 1, CheckFailed(e), s.success)
    case None => AfterAuth(s, sub.input)
  }

  /** A series of submissions, in order. */
  function Run(s: Status, subs: seq<Submission>): Status
    decreases |subs|
  {
    if subs == [] then s else Run(AfterSubmit(s, subs[0]), subs[1..])
  }

  /** A submission the cascade turns away counts one attempt, shows that check's
      message and keeps the success line. */
  lemma RejectedSubmission(s: Status, sub: Submission, e: FormError)
    requires ValidateForm(FormOf(s, sub)) == Some(e)
    ensures !ReachesAuth(s, sub)
    ensures AfterSubmit(s, sub) == Status(s.attempts + 1, CheckFailed(e), s.success)
  {
  }

  /** The counter resets exactly on a successful login. */
  lemma CounterResetsExactlyOnLogin(s: Status, sub: Submission)
    ensures AfterSubmit(s, sub).attempts == 0 <==>
      ReachesAuth(s, sub) && AfterSubmit(s, sub).success == LoggedIn
  {
  }

  /** A locked-out submission is turned away and counts one more attempt. */
  lemma LockedOutStep(s: Status, sub: Submission)
    requires s.attempts >= MaxAttempts
    ensures !ReachesAuth(s, sub)
    ensures AfterSubmit(s, sub).attempts == s.attempts + 1
  {
    assert FormOf(s, sub).attempts >= MaxAttempts;
  }

  /** From a locked-out state every submission counts one attempt. */
  lemma {:induction false} LockoutCountsEverySubmission(s: Status, subs: seq<Submission>)
    requires s.attempts >= MaxAttempts
    ensures Run(s, subs).attempts == s.attempts + |subs|
    decreases |subs|
  {
    if subs != [] {
      LockedOutStep(s, subs[0]);
      LockoutCountsEverySubmission(AfterSubmit(s, subs[0]), subs[1..]);
    }
  }

  /** Once five attempts have been counted no submission reaches the provider, and
      every one of them counts again: the lockout never lifts. */
  lemma LockoutIsPermanent(s: Status, subs: seq<Submission>)
    requires s.attempts >= MaxAttempts
    ensures Run(s, subs).attempts == s.attempts + |subs|
    ensures forall k :: 0 <= k < |subs| ==> !ReachesAuth(Run(s, subs[..k]), subs[k])
  {
    LockoutCountsEverySubmission(s, subs);
    forall k | 0 <= k < |subs| ensures !ReachesAuth(Run(s, subs[..k]), subs[k]) {
      LockoutCountsEverySubmission(s, subs[..k]);
      LockedOutStep(Run(s, subs[..k]), subs[k]);
    }
  }

  /** The "attempt n of 5" banner. */
  predicate ShowsAttemptBanner(attempts: nat) {
    attempts > 0 && attempts < MaxAttempts
  }

  /** Once locked, the banner never comes back. */
  lemma BannerNeverReturnsAfterLockout(s: Status, subs: seq<Submission>)
    requires s.attempts >= MaxAttempts
    ensures !ShowsAttemptBanner(Run(s, subs).attempts)
  {
    LockoutIsPermanent(s, subs);
  }

  /** What a keystroke in either field leaves behind: both lines cleared, the
      counter untouched. Outside a transition `loading` is false, so the error's
      `!loading` guard always lets it clear. */
  function AfterInput(s: Status): Status {
    Status(s.attempts, NoError, NoSuccess)
  }

  /** What the user does between renders: press "Log in", or type in a field. */
  datatype Event = Pressed(sub: Submission) | Typed

  function AfterEvent(s: Status, e: Event): Status {
    match e
    case Pressed(sub) => AfterSubmit(s, sub)
    case Typed => AfterInput(s)
  }

  /** A series of presses and keystrokes, in order. */
  function Replay(s: Status, evs: seq<Event>): Status
    decreases |evs|
  {
    if evs == [] then s else Replay(AfterEvent(s, evs[0]), evs[1..])
  }

  /** From a locked-out state, typing never lowers the counter and every press
      raises it, so the state stays locked out. */
  lemma {:induction false} LockoutSurvivesEditing(s: Status, evs: seq<Event>)
    requires s.attempts >= MaxAttempts
    ensures Replay(s, evs).attempts >= s.attempts
    decreases |evs|
  {
    if evs != [] {
      if evs[0].Pressed? { LockedOutStep(s, evs[0].sub); }
      LockoutSurvivesEditing(AfterEvent(s, evs[0]), evs[1..]);
    }
  }

  /** Editing the inputs between presses does not lift the lockout: no press in any
      mix of presses and keystrokes reaches the provider, and the banner stays away. */
  lemma LockoutIsPermanentWithEditing(s: Status, evs: seq<Event>)
    requires s.attempts >= MaxAttempts
    ensures forall k :: 0 <= k < |evs| && evs[k].Pressed? ==>
      !ReachesAuth(Replay(s, evs[..k]), evs[k].sub)
    ensures !ShowsAttemptBanner(Replay(s, evs).attempts)
  {
    LockoutSurvivesEditing(s, evs);
    forall k | 0 <= k < |evs| && evs[k].Pressed?
      ensures !ReachesAuth(Replay(s, evs[..k]), evs[k].sub)
    {
      LockoutSurvivesEditing(s, evs[..k]);
      LockedOutStep(Replay(s, evs[..k]), evs[k].sub);
    }
  }

  /** A submission that reaches the provider never meets the weak-password
      rejection on its sign-up retry: the cascade already demanded six code units. */
  lemma SignUpRetryNeverWeak(s: Status, sub: Submission)
    requires ReachesAuth(s, sub)
    ensures CreateAccount(DerivedEmail(sub.input), sub.password).SignedIn?
  {
    AcceptedFormGuarantees(FormOf(s, sub));
  }

  /** A non-blank password shorter than six code units is turned away before the
      provider, whatever the counter: one more attempt and the length message. */
  lemma ShortPasswordRejected(s: Status, sub: Submission)
    requires sub.online && !AllWhitespace(sub.input) && !AllWhitespace(sub.password)
    requires Utf16Length(sub.password) < MinPasswordLength
    ensures AfterSubmit(s, sub) == Status(s.attempts + 1, CheckFailed(ShortPassword), s.success)
  {
    var f := FormOf(s, sub);
    assert ValidateForm(f) == Some(ShortPassword) by {
      forall c: FormError | c.Rank() < ShortPassword.Rank() ensures !CascadeFails(c, f) {
        match c
        case Offline =>
        case MissingIdentifier =>
        case MissingPassword =>
        case _ =>
      }
      CascadeStopsAt(f, ShortPassword);
    }
    RejectedSubmission(s, sub, ShortPassword);
  }

  /** A submission that stops at the password-length check. */
  predicate ShortPasswordSubmission(sub: Submission) {
    sub.online && !AllWhitespace(sub.input) && !AllWhitespace(sub.password)
    && Utf16Length(sub.password) < MinPasswordLength
  }

  /** Every short-password submission counts one more failed attempt. */
  lemma {:induction false} ShortPasswordsCountUp(s: Status, subs: seq<Submission>)
    requires forall k :: 0 <= k < |subs| ==> ShortPasswordSubmission(subs[k])
    ensures Run(s, subs).attempts == s.attempts + |subs|
    ensures Run(s, subs).success == s.success
    decreases |subs|
  {
    if subs != [] {
      ShortPasswordRejected(s, subs[0]);
      ShortPasswordsCountUp(AfterSubmit(s, subs[0]), subs[1..]);
    }
  }

  /** A locked-out user's well-formed submission shows the lockout message and
      never reaches the provider. */
  lemma LockedOutSubmissionBlocked(s: Status, sub: Submission)
    requires s.attempts >= MaxAttempts
    requires sub.online && !AllWhitespace(sub.input) && !AllWhitespace(sub.password)
    requires Utf16Length(sub.password) >= MinPasswordLength
    requires '@' in sub.input ==> ValidateEmail(sub.input)
    requires LooksLikePhone(sub.input) ==> ValidatePhone(sub.input)
    requires '@' !in sub.input && !LooksLikePhone(sub.input) ==> ValidateUsername(sub.input)
    ensures !ReachesAuth(s, sub)
    ensures AfterSubmit(s, sub) == Status(s.attempts + 1, CheckFailed(TooManyAttempts), s.success)
  {
    assert ValidateForm(FormOf(s, sub)) == Some(TooManyAttempts) by {
      LockoutReportedForWellFormedForm(FormOf(s, sub));
    }
    RejectedSubmission(s, sub, TooManyAttempts);
  }

  /** While fewer than three attempts came before, every accepted submission logs
      the user in: directly, or, for an input containing "error", through the
      sign-up retry. */
  lemma AcceptedBelowRetryLimitLogsIn(s: Status, sub: Submission)
    requires ReachesAuth(s, sub) && s.attempts < RetryLimit
    ensures AfterSubmit(s, sub) == Status(0, NoError, LoggedIn)
  {
  }

  /** Connectivity is checked first: an offline submission sees the network
      message even when locked out. */
  lemma OfflineReportedFirst(s: Status, sub: Submission)
    requires !sub.online
    ensures AfterSubmit(s, sub) == Status(s.attempts + 1, CheckFailed(Offline), s.success)
  {
  }

  // -------------------------------------------------------------------- carousel

  /** The carousel's interval step: `(prev + 1) % screenshots.length`. */
  function NextSlide(i: nat): (r: nat)
    ensures r < SlideCount
    ensures i < SlideCount ==> r != i
  {
    (i + 1) % SlideCount
  }

  function SlideAfterTicks(i: nat, n: nat): nat {
    if n == 0 then i else NextSlide(SlideAfterTicks(i, n - 1))
  }

  /** After n ticks the carousel has moved n slides on, modulo the slide count. */
  lemma {:induction false} TicksRotate(i: nat, n: nat)
    requires i < SlideCount
    ensures SlideAfterTicks(i, n) == (i + n) % SlideCount
  {
    if n > 0 {
      TicksRotate(i, n - 1);
      NextSlideOfRemainder(i + n - 1);
    }
  }

  /** One step from `m`'s slide is `m + 1`'s slide. */
  lemma NextSlideOfRemainder(m: nat)
    ensures NextSlide(m % SlideCount) == (m + 1) % SlideCount
  {
  }

  /** Within four ticks every slide is shown. */
  lemma EverySlideShown(i: nat, j: nat)
    requires i < SlideCount && j < SlideCount
    ensures SlideAfterTicks(i, (j + SlideCount - i) % SlideCount) == j
  {
    TicksRotate(i, (j + SlideCount - i) % SlideCount);
  }

  // ---------------------------------------------------------------- component

  /** The component's state. */
  class LoginPage {
    var attempts: nat
    var error: ErrorNotice
    var success: SuccessNotice
    var loading: bool
    var online: bool
    var carouselIndex: nat

    ghost predicate Valid()
      reads this
    {
      carouselIndex < SlideCount && !loading
    }

    function CurrentStatus(): Status
      reads this
    {
      Status(attempts, error, success)
    }

    /** The initial state: no attempts, no messages, the first slide. */
    constructor (isOnline: bool)
      ensures Valid()
      ensures attempts == 0 && error == NoError && success == NoSuccess
      ensures online == isOnline && carouselIndex == 0
    {
      attempts, error, success := 0, NoError, NoSuccess;
      loading, online, carouselIndex := false, isOnline, 0;
    }

    /** The browser's online and offline events. */
    method SetOnline(isOnline: bool)
      requires Valid()
      modifies this`online
      ensures Valid()
      ensures online == isOnline
    {
      online := isOnline;
    }

    /** `handleLogin`. The result says whether the provider was called. */
    method Submit(input: string, password: string) returns (ghost reachedAuth: bool)
      requires Valid()
      modifies this`attempts, this`error, this`success, this`loading
      ensures Valid()
      ensures reachedAuth == ReachesAuth(old(CurrentStatus()), Submission(online, input, password))
      ensures CurrentStatus() == AfterSubmit(old(CurrentStatus()), Submission(online, input, password))
    {
      ghost var before := CurrentStatus();
      ghost var sub := Submission(online, input, password);
      var check := ValidateForm(Form(online, input, password, attempts));
      assert check == ValidateForm(FormOf(before, sub));
      if check.Some? {
        assert AfterSubmit(before, sub) == Status(attempts + 1, CheckFailed(check.value), success);
        error := CheckFailed(check.value);
        attempts := attempts + 1;
        reachedAuth := false;
        return;
      }
      assert AfterSubmit(before, sub) == AfterAuth(before, input);
      AcceptedFormGuarantees(FormOf(before, sub));
      Authenticate(input, password);
      reachedAuth := true;
    }

    /** The provider calls of `handleLogin`, once the form has passed: sign in,
        and on a rejection either retry as a sign-up or report the account as
        not found. */
    method Authenticate(input: string, password: string)
      requires Valid()
      requires Utf16Length(password) >= MinPasswordLength
      modifies this`attempts, this`error, this`success, this`loading
      ensures Valid()
      ensures CurrentStatus() == AfterAuth(old(CurrentStatus()), input)
    {
      // the counter as the handler's closure saw it
      var seenAttempts := attempts;
      loading := true;
      error := NoError;
      success := NoSuccess;
      var email := DerivedEmail(input);
      DerivedEmailContainsError(input);
      match SignIn(email, password) {
        case SignedIn(_) =>
          attempts := 0;
          success := LoggedIn;
        case Rejected(code) =>
          attempts := attempts + 1;
          if code in RetryCodes {
            if seenAttempts < RetryLimit {
              match CreateAccount(email, password) {
                case SignedIn(_) =>
                  attempts := 0;
                  success := LoggedIn;
                case Rejected(_) =>
                  // the weak-password rejection: the form check demanded six code units
                  assert false;
              }
            } else {
              error := AccountNotFound;
            }
          } else {
            // the provider rejects a sign-in only with a retry code
            assert false;
          }
      }
      loading := false;
    }

    /** `handleForgotPassword`: a reset notice exactly for a valid email; the
        '@' test before the email check never changes the outcome. */
    method ForgotPassword(input: string)
      requires Valid()
      modifies this`error, this`success
      ensures Valid()
      ensures ValidateEmail(input) ==> error == NoError && success == ResetSent(input)
      ensures !ValidateEmail(input) ==>
        success == old(success) &&
        error == (if AllWhitespace(input) then ResetNeedsEmail else ResetEmailInvalid)
    {
      if ValidateEmail(input) { ValidEmailIsNotBlank(input); }
      if Trim(input) == [] {
        error := ResetNeedsEmail;
        return;
      }
      if '@' !in input || !ValidateEmail(input) {
        error := ResetEmailInvalid;
        return;
      }
      success := ResetSent(input);
      error := NoError;
    }

    /** `handleInputChange`, apart from storing the typed text (the inputs are
        passed to `Submit` instead): a non-empty error is cleared unless a
        transition is under way, and a success notice is cleared. */
    method InputChanged()
      requires Valid()
      modifies this`error, this`success
      ensures Valid()
      ensures error == NoError && success == NoSuccess
      ensures CurrentStatus() == AfterInput(old(CurrentStatus()))
    {
      if error != NoError && !loading {
        error := NoError;
      }
      if success != NoSuccess {
        success := NoSuccess;
      }
    }

    /** The carousel's interval callback. */
    method Tick()
      requires Valid()
      modifies this`carouselIndex
      ensures Valid()
      ensures carouselIndex == NextSlide(old(carouselIndex))
    {
      carouselIndex := (carouselIndex + 1) % SlideCount;
    }

    /** A click on the dot of slide `index`; dots exist only for the slides. */
    method ShowSlide(index: nat)
      requires Valid() && index < SlideCount
      modifies this`carouselIndex
      ensures Valid() && carouselIndex == index
    {
      carouselIndex := index;
    }
  }
}

=== FILE: simulated_auth.dfy ===
/**
 * The in-memory stand-in for the identity provider. Its delays are left out; what
 * remains is how each call settles, decided by the email and password alone.
 */
module SimulatedAuth {
  import opened JsText

  const InvalidCredentialCode: string := "auth/invalid-credential"
  const UserNotFoundCode: string := "auth/user-not-found"
  const WeakPasswordCode: string := "auth/weak-password"

  /** The codes after which the login handler retries by creating the account. */
  const RetryCodes: seq<string> := [UserNotFoundCode, InvalidCredentialCode]

  /** The suffix that turns a username or phone number into a demo email. */
  const DemoDomain: string := "@example.com"

  /** How a call settles: the user's email, or a rejection code. */
  datatype AuthResult = SignedIn(email: string) | Rejected(code: string)

  /** `signInWithEmailAndPassword`: rejects every email that contains "error",
      and always with a code the handler answers by retrying as a sign-up. */
  function SignIn(email: string, password: string): (r: AuthResult)
    ensures r.Rejected? <==> Contains(email, "error")
    ensures r.Rejected? ==> r.code in RetryCodes
    ensures r.SignedIn? ==> r.email == email
  {
    if Contains(email, "error") then Rejected(InvalidCredentialCode) else SignedIn(email)
  }

  /** `createUserWithEmailAndPassword`: a password of at least six UTF-16 code
      units always succeeds; a shorter one is rejected as weak. */
  function CreateAccount(email: string, password: string): (r: AuthResult)
    ensures r.Rejected? <==> Utf16Length(password) < 6
    ensures r.Rejected? ==> r.code == WeakPasswordCode
    ensures r.SignedIn? ==> r.email == email
  {
    if Utf16Length(password) < 6 then Rejected(WeakPasswordCode) else SignedIn(email)
  }

  /** The email sent to the provider: the input itself when it holds an '@',
      otherwise the input with the demo domain appended. */
  function DerivedEmail(input: string): (r: string)
    ensures '@' in r
    ensures input <= r
    ensures '@' in input ==> r == input
  {
    if '@' in input then input else input + DemoDomain
  }

  /** No window of the email that reaches past the input spells "error". */
  lemma NoErrorPastInput(input: string, i: nat)
    requires '@' !in input && i + 5 > |input|
    ensures !OccursAt(input + DemoDomain, "error", i)
  {
    var e := input + DemoDomain;
    if i + 5 <= |e| {
      var w := e[i..i + 5];
      if i <= |input| {
        assert w[|input| - i] == '@';
      } else {
        var j := i - |input|;
        assert w[0] == DemoDomain[j] && w[1] == DemoDomain[j + 1];
        assert 1 <= j <= 7;
      }
    }
  }

  /** Appending the demo domain neither creates nor hides an "error": the provider
      rejects the derived email exactly when the input itself contains "error". */
  lemma DerivedEmailContainsError(input: string)
    ensures Contains(DerivedEmail(input), "error") <==> Contains(input, "error")
  {
    if '@' !in input {
      var e := input + DemoDomain;
      ContainsIff(e, "error");
      ContainsIff(input, "error");
      forall i: nat ensures OccursAt(e, "error", i) <==> OccursAt(input, "error", i) {
        if i + 5 <= |input| {
          assert e[i..i + 5] == input[i..i + 5];
        } else {
          NoErrorPastInput(input, i);
        }
      }
    }
  }
}

=== FILE: validators.dfy ===
/**
 * The three credential-input validators of the login form and the phone-shape
 * test that classifies an input before it is checked. Each regular expression
 * is read the way an ECMAScript engine matches it without the `u` flag: every
 * character class here holds only BMP characters, so matching code units and
 * matching code points agree. Each validator is an executable predicate that
 * splits the input without backtracking. For the email, phone and phone-shape
 * expressions a ghost predicate beside it states the regular expression as
 * written (some split of the input into the pattern's pieces exists) and a lemma
 * shows the two agree. The username expression is a single predicate that follows
 * it literally, and the separator class of the `replace` call is `IsSeparator`.
 */
module Validators {
  import opened JsText

  // Character classes, by name.

  predicate IsAsciiLetter(c: char) { 'a' <= c <= 'z' || 'A' <= c <= 'Z' }
  predicate IsDigit(c: char) { '0' <= c <= '9' }
  predicate IsNonZeroDigit(c: char) { '1' <= c <= '9' }

  /** [a-zA-Z0-9._%+-] */
  predicate IsLocalChar(c: char) {
    IsAsciiLetter(c) || IsDigit(c) || c == '.' || c == '_' || c == '%' || c == '+' || c == '-'
  }

  /** [a-zA-Z0-9.-] */
  predicate IsDomainChar(c: char) { IsAsciiLetter(c) || IsDigit(c) || c == '.' || c == '-' }

  /** [a-zA-Z0-9._] */
  predicate IsUsernameChar(c: char) { IsAsciiLetter(c) || IsDigit(c) || c == '.' || c == '_' }

  /** [\s-()/]: under Annex B.1.2 of ECMA-262 a range whose end is a class escape
      is read as the escape, a literal '-', and the other end. */
  predicate IsSeparator(c: char) {
    IsJsWhitespace(c) || c == '-' || c == '(' || c == ')' || c == '/'
  }

  /** [\d\s-()/], read the same way. */
  predicate IsPhoneShapeChar(c: char) { IsDigit(c) || IsSeparator(c) }

  predicate AllLocal(s: string) { forall k :: 0 <= k < |s| ==> IsLocalChar(s[k]) }
  predicate AllDomain(s: string) { forall k :: 0 <= k < |s| ==> IsDomainChar(s[k]) }
  predicate AllLetters(s: string) { forall k :: 0 <= k < |s| ==> IsAsciiLetter(s[k]) }
  predicate AllDigits(s: string) { forall k :: 0 <= k < |s| ==> IsDigit(s[k]) }
  predicate AllUsername(s: string) { forall k :: 0 <= k < |s| ==> IsUsernameChar(s[k]) }
  predicate AllPhoneShape(s: string) { forall k :: 0 <= k < |s| ==> IsPhoneShapeChar(s[k]) }

  // ---------------------------------------------------------------- email

  /** /^[a-zA-Z0-9._%+-]+@[a-zA-Z0-9.-]+\.[a-zA-Z]{2,}$/ matched by splitting at
      the first '@' (no class admits it) and, after it, at the last '.' (the final
      letters cannot hold one). */
  predicate ValidateEmail(s: string) {
    var local := BeforeFirst(s, '@');
    |local| < |s| && |local| >= 1 && AllLocal(local) && ValidateDomain(s[|local| + 1..])
  }

  /** The part after the '@': [a-zA-Z0-9.-]+\.[a-zA-Z]{2,}, split at its last '.'. */
  predicate ValidateDomain(d: string) {
    var tld := AfterLast(d, '.');
    |tld| < |d| && |d| - |tld| - 1 >= 1 && AllDomain(d[..|d| - |tld| - 1]) &&
    |tld| >= 2 && AllLetters(tld)
  }

  /** The domain pattern matches with the escaped '.' at index `dot`. */
  predicate DomainSplit(d: string, dot: nat) {
    0 < dot && dot + 3 <= |d| && AllDomain(d[..dot]) && d[dot] == '.' && AllLetters(d[dot + 1..])
  }

  ghost predicate DomainRegex(d: string) {
    exists dot: nat :: DomainSplit(d, dot)
  }

  /** The whole pattern matches with the '@' at index `at`. */
  ghost predicate EmailSplit(s: string, at: nat) {
    0 < at < |s| && AllLocal(s[..at]) && s[at] == '@' && DomainRegex(s[at + 1..])
  }

  ghost predicate EmailRegex(s: string) {
    exists at: nat :: EmailSplit(s, at)
  }

  lemma DomainMatchesRegex(d: string)
    ensures ValidateDomain(d) <==> DomainRegex(d)
  {
    if ValidateDomain(d) {
      var tld := AfterLast(d, '.');
      assert DomainSplit(d, |d| - |tld| - 1);
    }
    if DomainRegex(d) {
      var dot: nat :| DomainSplit(d, dot);
      assert '.' !in d[dot + 1..] by {
        forall k | dot + 1 <= k < |d| ensures d[k] != '.' {
          assert d[k] == d[dot + 1..][k - dot - 1];
        }
      }
      AfterLastAt(d, '.', dot);
    }
  }

  /** The split-free check accepts exactly the strings the regular expression matches. */
  lemma EmailMatchesRegex(s: string)
    ensures ValidateEmail(s) <==> EmailRegex(s)
  {
    if ValidateEmail(s) { EmailCheckSound(s); }
    if EmailRegex(s) {
      var at: nat :| EmailSplit(s, at);
      EmailCheckComplete(s, at);
    }
  }

  lemma EmailCheckSound(s: string)
    requires ValidateEmail(s)
    ensures EmailRegex(s)
  {
    var at := |BeforeFirst(s, '@')|;
    DomainMatchesRegex(s[at + 1..]);
    assert s[..at] == BeforeFirst(s, '@');
    assert EmailSplit(s, at);
  }

  lemma EmailCheckComplete(s: string, at: nat)
    requires EmailSplit(s, at)
    ensures ValidateEmail(s)
  {
    assert '@' !in s[..at] by {
      forall k | 0 <= k < at ensures s[k] != '@' { assert IsLocalChar(s[..at][k]); }
    }
    BeforeFirstAt(s, '@', at);
    assert ValidateDomain(s[at + 1..]) by { DomainMatchesRegex(s[at + 1..]); }
    var local := BeforeFirst(s, '@');
    assert local == s[..at] && AllLocal(local);
  }

  /** An accepted domain holds no '@'. */
  lemma DomainHasNoAt(d: string)
    requires ValidateDomain(d)
    ensures '@' !in d
  {
    var tld := AfterLast(d, '.');
    var h := |d| - |tld| - 1;
    forall k | 0 <= k < |d| ensures d[k] != '@' {
      if k < h { assert d[k] == d[..h][k]; }
      else if k > h { assert d[k] == tld[k - h - 1]; }
    }
  }

  /** An accepted email has a non-empty local part before its first '@'. */
  lemma EmailLocalPartNonEmpty(s: string)
    requires ValidateEmail(s)
    ensures |BeforeFirst(s, '@')| >= 1
  {
    var local := BeforeFirst(s, '@');
    assert |local| >= 1;
  }

  /** An accepted email holds exactly one '@'. */
  lemma EmailHasOneAt(s: string)
    requires ValidateEmail(s)
    ensures multiset(s)['@'] == 1
  {
    var n := |BeforeFirst(s, '@')|;
    assert n < |s| && s[n] == '@' && '@' !in s[..n];
    assert '@' !in s[n + 1..] by { DomainHasNoAt(s[n + 1..]); }
    OccursOnlyAt(s, '@', n);
  }

  /** A character found at one index and nowhere else occurs once. */
  lemma OccursOnlyAt(s: string, c: char, n: nat)
    requires n < |s| && s[n] == c && c !in s[..n] && c !in s[n + 1..]
    ensures multiset(s)[c] == 1
  {
    assert s == s[..n] + [c] + s[n + 1..];
    assert multiset(s) == multiset(s[..n]) + multiset{c} + multiset(s[n + 1..]);
  }

  /** An accepted email holds an '@' and is not blank: its first character is
      drawn from the local-part class, which holds no whitespace. */
  lemma ValidEmailIsNotBlank(s: string)
    requires ValidateEmail(s)
    ensures '@' in s && !AllWhitespace(s)
  {
    var local := BeforeFirst(s, '@');
    assert s[0] == local[0] && IsLocalChar(local[0]);
    assert s[|local|] == '@';
  }

  // ------------------------------------------------------------- username

  /** /^[a-zA-Z0-9._]{1,30}$/ */
  predicate UsernameRegex(s: string) { 1 <= |s| <= 30 && AllUsername(s) }

  /** The regular expression and the extra `length >= 1` test; the latter never
      changes the answer. */
  function ValidateUsername(s: string): (r: bool)
    ensures r <==> 1 <= |s| <= 30 && AllUsername(s)
  {
    UsernameRegex(s) && Utf16Length(s) >= 1
  }

  // ---------------------------------------------------------------- phone

  /** `phone.replace(/[\s-()/]/g, '')`: every separator deleted, the rest kept in order. */
  function StripSeparators(s: string): (r: string)
    ensures |r| <= |s|
    ensures forall k :: 0 <= k < |r| ==> !IsSeparator(r[k])
    ensures forall c :: c in r <==> c in s && !IsSeparator(c)
  {
    if s == [] then []
    else if IsSeparator(s[0]) then StripSeparators(s[1..])
    else [s[0]] + StripSeparators(s[1..])
  }

  /** Stripping works piecewise: the stripped concatenation is the concatenation of
      the stripped parts, so the kept characters stay in their order and keep their
      repetitions. */
  lemma {:induction false} StripSeparatorsAppend(a: string, b: string)
    ensures StripSeparators(a + b) == StripSeparators(a) + StripSeparators(b)
    decreases |a|
  {
    if a != [] {
      assert (a + b)[0] == a[0] && (a + b)[1..] == a[1..] + b;
      StripSeparatorsAppend(a[1..], b);
      if !IsSeparator(a[0]) {
        assert StripSeparators(a + b) == [a[0]] + (StripSeparators(a[1..]) + StripSeparators(b));
        assert StripSeparators(a) == [a[0]] + StripSeparators(a[1..]);
      }
    } else {
      assert a + b == b;
    }
  }

  /** A single separator disappears; any other single character stays. */
  lemma StripSeparatorsOfChar(c: char)
    ensures IsSeparator(c) ==> StripSeparators([c]) == []
    ensures !IsSeparator(c) ==> StripSeparators([c]) == [c]
  {
    assert [c][1..] == [];
  }

  /** A string with no separator is left as it is. */
  lemma {:induction false} StripSeparatorsKeepsClean(s: string)
    requires forall k :: 0 <= k < |s| ==> !IsSeparator(s[k])
    ensures StripSeparators(s) == s
  {
    if s != [] {
      StripSeparatorsKeepsClean(s[1..]);
      assert [s[0]] + s[1..] == s;
    }
  }

  /** /^[+]?[1-9][\d]{7,14}$/ on the stripped text: an optional '+', then 8 to 15
      digits of which the first is not '0'. A leading '+' can only be taken by
      `[+]?`, since `[1-9]` does not admit it. */
  predicate PhoneDigitsValid(t: string) {
    var d := if t != [] && t[0] == '+' then t[1..] else t;
    8 <= |d| <= 15 && IsNonZeroDigit(d[0]) && AllDigits(d[1..])
  }

  /** The pattern matches with `plus` characters taken by `[+]?`. */
  predicate PhoneSplit(t: string, plus: nat) {
    plus <= 1 && plus <= |t| && (plus == 1 ==> t[0] == '+') &&
    8 <= |t| - plus <= 15 && IsNonZeroDigit(t[plus]) && AllDigits(t[plus + 1..])
  }

  ghost predicate PhoneRegex(t: string) {
    exists plus: nat :: PhoneSplit(t, plus)
  }

  lemma PhoneDigitsMatchRegex(t: string)
    ensures PhoneDigitsValid(t) <==> PhoneRegex(t)
  {
    if PhoneDigitsValid(t) {
      var plus := if t != [] && t[0] == '+' then 1 else 0;
      assert t[plus..][1..] == t[plus + 1..];
      assert PhoneSplit(t, plus);
    }
    if PhoneRegex(t) {
      var plus: nat :| PhoneSplit(t, plus);
      assert plus == 0 ==> t[0] != '+';
      assert t[plus..][1..] == t[plus + 1..];
    }
  }

  /** `validatePhone`: the regular expression applied to the stripped input. */
  predicate ValidatePhone(s: string) {
    PhoneDigitsValid(StripSeparators(s))
  }

  /** An accepted phone number, once stripped, is 8 to 15 digits, optionally behind a
      '+', and its first digit is not '0'. */
  lemma ValidPhoneShape(s: string)
    requires ValidatePhone(s)
    ensures var t := StripSeparators(s);
      var d := if t[0] == '+' then t[1..] else t;
      8 <= |d| <= 15 && IsNonZeroDigit(d[0]) &&
      forall k :: 0 <= k < |t| ==> IsDigit(t[k]) || (k == 0 && t[k] == '+')
  {
    var t := StripSeparators(s);
    var plus := if t[0] == '+' then 1 else 0;
    forall k | 0 <= k < |t| ensures IsDigit(t[k]) || (k == 0 && t[k] == '+') {
      if k > plus { assert t[k] == t[plus..][1..][k - plus - 1]; }
      else if k == plus { assert t[k] == t[plus..][0]; }
    }
  }

  /** The `isPhone` test of `validateForm`, `/^[+]?[\d\s-()/]+$/`: the input is shaped like a phone number. */
  predicate LooksLikePhone(s: string) {
    var body := if s != [] && s[0] == '+' then s[1..] else s;
    |body| >= 1 && AllPhoneShape(body)
  }

  predicate PhoneShapeSplit(s: string, plus: nat) {
    plus <= 1 && plus < |s| && (plus == 1 ==> s[0] == '+') && AllPhoneShape(s[plus..])
  }

  ghost predicate PhoneShapeRegex(s: string) {
    exists plus: nat :: PhoneShapeSplit(s, plus)
  }

  lemma LooksLikePhoneMatchesRegex(s: string)
    ensures LooksLikePhone(s) <==> PhoneShapeRegex(s)
  {
    if LooksLikePhone(s) {
      assert PhoneShapeSplit(s, if s[0] == '+' then 1 else 0);
    }
    if PhoneShapeRegex(s) {
      var plus: nat :| PhoneShapeSplit(s, plus);
      assert plus == 0 ==> !IsPhoneShapeChar(s[plus..][0]) || s[0] != '+';
    }
  }

  /** An input that starts with a letter is never taken for a phone number. */
  lemma LetterFirstIsNotPhone(s: string)
    requires s != [] && IsAsciiLetter(s[0])
    ensures !LooksLikePhone(s)
  {
    assert !IsPhoneShapeChar(s[0]);
  }

  /** No input is classified both as an email and as a phone number. */
  lemma EmailAndPhoneExclusive(s: string)
    ensures !('@' in s && LooksLikePhone(s))
  {
    if LooksLikePhone(s) {
      var body := if s[0] == '+' then s[1..] else s;
      forall k | 0 <= k < |s| ensures s[k] != '@' {
        if s[0] == '+' && k > 0 { assert s[k] == body[k - 1]; }
        else if s[0] != '+' { assert s[k] == body[k]; }
      }
    }
  }
}

=== FILE: wrappers.dfy ===
/** The one failure-compatible wrapper the model needs. */
module Wrappers {
  datatype Option<+T> = None | Some(value: T)
}
